=== FILE: README.md ===
# Cloud workers for OpenCode: a Dafny model of the core

This project models the core of the OpenCode "cloud workers" plugin, which
hands coding tasks to a remote agent backend (Jules) and keeps a local record
of each delegated session. The model covers:

- **Status normalisation.** `mapJulesStatus` maps the Jules API's `state` vocabulary onto the plugin's canonical
  `SessionStatus` (module `JulesStateMachine`).
- **The Jules REST client's pure logic** (module `JulesClient`):
  - building the base URL;
  - normalising `sessions/` resource names;
  - the `createSession` body defaults;
  - the `listSessions` query;
  - the request each operation issues;
  - classifying transport outcomes into results, `JulesAPIError` and network errors;
  - `cancelSession`, which always fails.
- **`CloudWorkerLoop`** (module `ReconciliationLoop`):
  - The scheduler is a state machine over (timer set?, poll running?). `start`, `stop`, timer ticks and the end of a running poll are events.
  - One poll cycle is a pure function of the pending sessions, the outcome of each `getSession` call, the clock, and the notification sink.
  - The cycle compares statuses, builds the store update and notifies through `notifyUser`.
- **The three commands' `execute` logic:**
  - `start` (module `StartTool`): resolves the repository and branch, asks the provider for a session, and builds the `TrackedSession` record;
  - `status` (module `StatusTool`): looks the session up, forces a remote refresh, merges it, and falls back to the local status;
  - `list` (module `ListTool`): the empty case, a stable newest-first sort, and one entry per session.
- **Shared vocabulary** (module `Sessions`): the canonical status, the tracked session record, the remote state, and the partial update ("patch") that callers hand to the session store.
- **Helper modules:**
  - `Text` models the JavaScript string behaviour the code relies on: `trim()` with the ECMAScript whitespace set, `slice(0, n)`, ASCII `toUpperCase()`, truthiness of optional strings, `x || "N/A"`, and integer-to-decimal conversion with its parse-back.
  - `Wrappers` supplies `Option` and `Result`.

Effects become data:
- Git lookups, the provider's answers, the fresh local id, the clock and the notification sink are parameters.
- Each operation returns the calls it makes, such as `getSession` ids, store updates and `addSession`, next to its reply.

## Model

| member | source | states |
|---|---|---|
| JulesStateMachine.MapJulesStatus | src/providers/jules/state-machine.ts:4-25 | never `cancelled`; `completed` exactly for COMPLETED and `failed` exactly for FAILED; every string outside the eight listed states (STATE_UNSPECIFIED included) gives `in_progress` |
| JulesStateMachine.EveryStatusButCancelledReached | src/providers/jules/state-machine.ts:5-21 | every canonical status except `cancelled` has a Jules preimage, and the mapping sends that preimage back to it |
| JulesStateMachine.ListedStatesRoundTrip | src/providers/jules/state-machine.ts:5-21 | on the eight listed states the mapping is undone by the right-to-left reading of its table |
| JulesStateMachine.ListedStatesInjective | src/providers/jules/state-machine.ts:5-21 | two listed states with the same image are the same state |
| JulesStateMachine.LowerCaseCounterpart | src/providers/jules/state-machine.ts:5-21 | for every status but `cancelled` and `awaiting_feedback`, lower-casing the Jules state that maps onto it gives the status name |
| Sessions.DetailsUrl | src/core/loop.ts:58 | `details?.url` is present exactly when the details carry a `url` key, and then it is that value |
| Sessions.ApplyPatch | src/core/loop.ts:55-60 | the merged record carries every field the patch sets; a field the patch leaves unset keeps its stored value, and fields a patch cannot carry never change (the merge is assumed to be an object spread) |
| Sessions.ApplyPatchIdempotent | src/tools/status.ts:27-31 | merging the same patch twice is merging it once |
| Sessions.ApplyPatchKeepsWellFormed | src/core/loop.ts:55-60 | a patch whose timestamp does not go back keeps `createdAt <= updatedAt` and the review-round bound |
| Text.Trim | src/tools/start.ts:32 | the result is a contiguous slice of the input with no ECMAScript whitespace at either end |
| Text.Take | src/tools/list.ts:21 | `slice(0, n)` is a prefix of the input of length `min(n, length)` |
| Text.Join | src/tools/list.ts:24 | `join` of no parts is empty and of one part is that part; otherwise it opens with the first part and the separator, and closes with the last part |
| Text.JoinSnoc | src/tools/list.ts:24 | joining one more part appends the separator and that part |
| Text.JoinKeepsPrefix | src/tools/list.ts:24 | the join of the first `k` parts opens the join of all of them |
| Text.JoinLength | src/tools/list.ts:24 | a join is exactly as long as its parts plus one separator between each pair of neighbours |
| Text.IntToStringRoundTrip | src/providers/jules/client.ts:114 | the decimal text of an integer parses back to that integer |
| JulesClient.BaseUrl | src/providers/jules/client.ts:28-32 | one trailing "/" of the configured URL gives way to the separator; otherwise "/" is inserted before the version |
| JulesClient.ResourceName | src/providers/jules/client.ts:105-107 | always starts with `sessions/`; an id already starting with it is returned as is, any other id follows the prefix verbatim |
| JulesClient.ResourceNameIdempotent | src/providers/jules/client.ts:105-107 | normalising twice is normalising once |
| JulesClient.CreateSessionBody | src/providers/jules/client.ts:86-97 | omitted `requirePlanApproval` becomes false and omitted `automationMode` becomes AUTO_CREATE_PR; given values and the other fields pass through |
| JulesClient.ListSessionsQuery | src/providers/jules/client.ts:112-117 | `pageSize` is always first and reads back as the given size or 20; `pageToken` appears, second, exactly when a non-empty token is given |
| JulesClient.RequestFor | src/providers/jules/client.ts:100-164 | session-scoped calls address `/sessions/<id>`; a request carries a body exactly when it is a POST |
| JulesClient.BareIdAndResourceNameAgree | src/providers/jules/client.ts:100-156 | a session-scoped call issues the same request for a bare id and for its resource name |
| JulesClient.Attempt | src/providers/jules/client.ts:51-65 | a non-ok status raises an API error carrying that status and the response body; an ok empty body is the empty object |
| JulesClient.Catch | src/providers/jules/client.ts:67-70 | an API error is rethrown unchanged, and anything else becomes a "Network error calling Jules API" |
| JulesClient.Perform | src/providers/jules/client.ts:37-71 | success exactly for an ok response with an empty or parsable body; an API error exactly for a non-ok status, with that status and body; an unreachable server gives a network error |
| JulesClient.CancelSession | src/providers/jules/client.ts:138-144 | fails as unsupported for every id |
| ReconciliationLoop.BeginPoll | src/core/loop.ts:37-39 | a poll begins exactly when none is running, and `isPolling` is set afterwards |
| ReconciliationLoop.Step | src/core/loop.ts:15-35 | `start` with a timer set is a no-op; `start` otherwise sets the timer, polls unless a poll is running, and leaves a running poll marked; a tick with the timer set and no poll running begins a poll, and any other tick does nothing; `stop` clears the timer and leaves a running poll alone; the end of a poll clears `isPolling` |
| ReconciliationLoop.SingleFlight | src/core/loop.ts:37-84 | along any feasible run, polls begun minus polls finished is the number running at the end |
| ReconciliationLoop.AtMostOnePollInFlight | src/core/loop.ts:37-39 | from an idle loop, no run ever has two polls in flight |
| ReconciliationLoop.StartWhileRunningIsNoOp | src/core/loop.ts:16 | any number of `start` calls while a timer is set leave the state alone and begin no poll |
| ReconciliationLoop.StartIsIdempotent | src/core/loop.ts:15-27 | from stopped, one or more `start` calls give exactly one immediate poll and one timer |
| ReconciliationLoop.StopIsIdempotent | src/core/loop.ts:29-35 | `stop` twice is `stop` once |
| ReconciliationLoop.StoppedLoopStaysQuiet | src/core/loop.ts:15-35 | once stopped, no poll begins and no timer returns until `start` |
| ReconciliationLoop.ChangeNotification | src/core/loop.ts:63-67 | the variant is "success" exactly for `completed` and "info" otherwise; the title ends with the new status |
| ReconciliationLoop.NotifyUser | src/core/loop.ts:86-106 | a failing toast is logged and swallowed; the toast shows the notification, and without one a console line starts with the title |
| ReconciliationLoop.Reconcile | src/core/loop.ts:46-75 | a failed fetch is isolated; an update happens exactly when the remote status differs; the patch sets status, message, console URL (from `details.url`) and time, and the notification is the change notification |
| ReconciliationLoop.ReconcileConverges | src/core/loop.ts:51-60 | after an update is applied, the same remote state is no longer a change |
| ReconciliationLoop.Effects | src/core/loop.ts:45-78 | one effect per pending session, in order, each depending only on that session's outcome |
| ReconciliationLoop.Changes | src/core/loop.ts:51-67 | the changes are exactly the changed effects, and there are none exactly when no effect is a change |
| ReconciliationLoop.ChangesAppend | src/core/loop.ts:45-67 | the changes of consecutive stretches of sessions are the changes of each stretch, in session order; with one session per stretch, each changed session contributes exactly one change |
| ReconciliationLoop.Deliver | src/core/loop.ts:63-67 | one delivery per change, in order |
| ReconciliationLoop.RemoteIds | src/core/loop.ts:45-48 | `getSession` is called once per pending session, in order, with its remote id |
| ReconciliationLoop.RunCycle | src/core/loop.ts:41-78 | `getSession` is called once per pending session, in order, with its remote id; each session's effect is its own reconciliation; the changes are those of the effects, and there is one delivery per change, in order |
| ReconciliationLoop.Poll | src/core/loop.ts:37-84 | a poll while one is running makes no call and changes nothing; otherwise it runs the full cycle over the pending sessions, and afterwards `isPolling` is false and the timer is as it was |
| ReconciliationLoop.QuietCycle | src/core/loop.ts:45-78 | a cycle that sees no status change updates nothing and notifies nobody |
| ReconciliationLoop.SingleChange | src/core/loop.ts:51-67 | exactly one changed session gives exactly one update and one notification |
| ReconciliationLoop.UpdatedIffStatusDiffers | src/core/loop.ts:51-74 | with distinct local ids, a session is updated exactly when its fetch succeeded with a different status |
| ReconciliationLoop.EffectsWithOneFailure | src/core/loop.ts:45-78 | a failing fetch for one session changes that session's effect to the failure and no other effect |
| ReconciliationLoop.FailureIsIsolated | src/core/loop.ts:45-78 | a failing `getSession` for one session leaves every other effect and every poll as it was |
| ReconciliationLoop.SinkFailureIsHarmless | src/core/loop.ts:86-106 | a failing notification sink changes neither the polls nor the updates |
| ReconciliationLoop.CycleFollowsRemote | src/core/loop.ts:45-78 | after a cycle, a session whose fetch returned another status carries the remote status, message and console URL and the cycle's time, and nothing else of it changes; every other session, a failed fetch included, is as it was |
| ReconciliationLoop.CycleConverges | src/core/loop.ts:51-60 | re-polling the updated sessions against the same remote states raises no notification |
| ReconciliationLoop.CycleKeepsWellFormed | src/core/loop.ts:55-60 | with a clock that does not run backwards, every updated record stays well formed |
| StartTool.ResolveRepo | src/tools/start.ts:26-36 | a non-empty `repo` argument wins; otherwise the trimmed git remote; unknown exactly when neither exists |
| StartTool.ResolveBranch | src/tools/start.ts:38-46 | a non-empty `branch` argument is used as given; otherwise the trimmed git branch, else "main" |
| StartTool.CreateRequest | src/tools/start.ts:49-56 | the provider is always asked with `autoCreatePR = true` and with `requirePlanApproval` set to `require_plan`, which defaults to false |
| StartTool.NewSession | src/tools/start.ts:59-78 | ids, status and console URL come from the create result; `auto_review` defaults to true; review round 0 of 3; not merged and not auto-merging; watched and not in flight; well formed |
| StartTool.GitCalls | src/tools/start.ts:26-46 | the remote is looked up exactly when no repo is given, and the branch exactly when none is given and the repo resolved |
| StartTool.Start | src/tools/start.ts:24-80 | fails with the repository error exactly when there is neither a repo argument nor a git remote; otherwise the session is created with the resolved values; `addSession` is called exactly once, last and right after a successful `createSession`, and never otherwise |
| StartTool.StartLooksUpGitFirst | src/tools/start.ts:26-80 | `start` performs its git lookups first, exactly as `GitCalls` gives them: the remote exactly when no repository is given, the branch exactly when none is given and the repository resolved; after them come exactly one `createSession` call, when the repository resolved, and one `addSession`, when that call succeeded |
| StartTool.StartReply | src/tools/start.ts:82-88 | the reply opens with the local id |
| StatusTool.RemotePatch | src/tools/status.ts:27-31 | the patch sets the remote status, message and console URL, and leaves the time alone |
| StatusTool.Status | src/tools/status.ts:15-46 | an unknown id fails with no query and no update; otherwise the stored remote id is queried; a failure reports the stored status with no update; a success merges the remote patch |
| StatusTool.RemoteMergeTouchesOnlyRemoteFields | src/tools/status.ts:27-34 | the refreshed record carries the remote status, message and console URL; its id, remote id, creation time, prompt and flags are the stored ones |
| StatusTool.KnownSessionAlwaysAnswers | src/tools/status.ts:23-46 | once the session exists the tool always answers, with a local reply exactly when the fetch failed |
| StatusTool.StatusCheckPreemptsLoopNotification | src/tools/status.ts:27-31 | after a status check, the loop seeing the same remote state finds no change |
| StatusTool.StatusText | src/tools/status.ts:36-45 | the reply opens with "Session Status" after a refresh and with "Local Status" after a failure, each followed by the status |
| ListTool.Insert | src/tools/list.ts:16-18 | inserting into a newest-first list keeps it newest first and adds exactly that session |
| ListTool.InsertIsStable | src/tools/list.ts:16-18 | insertion keeps sessions created at the same time in their relative order |
| ListTool.SortNewestFirst | src/tools/list.ts:16-18 | the sorted copy is newest first, a permutation of the store's list, and stable among equal `createdAt` |
| ListTool.Line | src/tools/list.ts:20-22 | an entry shows the upper-cased status, the local and remote ids, and a prefix of at most 50 characters of the prompt |
| ListTool.Lines | src/tools/list.ts:20-22 | one entry per session, in order |
| ListTool.List | src/tools/list.ts:9-24 | with zero sessions the reply is exactly "No cloud worker sessions found."; otherwise it opens with the count header |
| ListTool.ListShowsEverySessionOnce | src/tools/list.ts:16-24 | the entries are drawn from a newest-first permutation of the store, one per session; after the header the text opens with the newest session's entry and closes with the oldest's |
| ListTool.ListedInOrder | src/tools/list.ts:16-24 | for every `k`, the header followed by the first `k` entries of the newest-first order, separated by blank lines, opens the text: every session's entry is shown, in that order |
| ListTool.ListLength | src/tools/list.ts:20-24 | the text is exactly as long as the header, one entry per session and a blank line between neighbours; with `ListedInOrder` at `k` = the session count, no session is shown twice and nothing else follows |
| ListTool.HeaderCountsSessions | src/tools/list.ts:24 | the count in the header reads back as the number of sessions |

## Left out

- HTTP transport, headers, API key, and JSON encoding and decoding are left out. The transport is an input that says whether a request got a response and, if so, its status, its body, and whether the body parses. The JSON decoded from a body is not modelled.
- `setInterval` and `clearInterval`, promises and interleaving are replaced by the events `Start`, `Stop`, `Tick` and `PollFinished`. The interval length, 30000 ms by default, plays no part in the model.
- Console logging and the probing of the undocumented toast API are left out. The sink is an input: a toast that works, a toast that throws, or no toast.
- Git shell commands, `uuidv4` and `new Date()` are inputs. A failing git command is `None`.
- ISO timestamps are integers. `Created:` and `Updated:` in the status reply print that integer, not an ISO string.
- Zod argument schemas and the `tool()` registration wrapper are left out. Omitted `auto_review` and `require_plan` are `None`, and the schema's defaults are applied where the arguments are read.
- The session store's implementation is not part of this model. `Sessions.ApplyPatch` assumes the store merges a patch like an object spread. The store's own refresh of `updatedAt` and the pending filter of `getPendingSessions` are not modelled. A cycle's pending sessions are an input.
- The review phase that follows a completed session is a placeholder with no behaviour, and it is left out.
- `listSources` is modelled only as the request it issues.
- `getActivities` and `sendMessage` are modelled only as the request they issue. Their response payloads are left out.
- Percent-encoding in `URLSearchParams` is left out. The query pairs are modelled, and `QueryString` joins them unencoded.
- `slice` counts UTF-16 code units in JavaScript. `Text.Take` counts Dafny characters.
- `toUpperCase` is modelled on ASCII letters only. It is applied only to the status names, which are ASCII.
- One clock reading `now` serves a whole cycle. The source reads the clock once per changed session.
- StartTool.NewSession: one clock reading serves both `createdAt` and `updatedAt`, so the contract promises they are equal. The source reads the clock twice, so `updatedAt` may be a moment later.
- JulesClient.ListSessionsQuery: `pageSize` is an integer. The source takes a JavaScript number, whose `toString()` gives no decimal integer for values like `2.5` or `NaN`.
- StatusTool.RemoteMergeTouchesOnlyRemoteFields: says nothing about `updatedAt`. The status tool sends no time, and whether the store refreshes it is the store's own business.
- The message text of `JulesAPIError` and the full URL (base URL followed by the request path) are not modelled separately. The model keeps the status code, the body and the path.
- JulesStateMachine.LowerCaseCounterpart: AWAITING_USER_FEEDBACK is left out, because it maps to `awaiting_feedback` and not to its own lower-cased name. EveryStatusButCancelledReached states that pair.

## Notes on the source

- **Trailing slashes.** The base URL drops only one trailing slash (`/\/$/`). A configured URL ending in "//" keeps one slash and gains the separator. `JulesClient.BaseUrl` models this behaviour as written.
- **Empty git output.** When the git remote lookup succeeds but prints only whitespace, the repository resolves to the empty string and `start` goes on to create a session. Only a failing command is an error. Likewise, an empty git branch output is used as is, not replaced by "main".
- **Status checks and the loop.** A `status` check merges the remote status into the store without notifying. The loop, seeing the same remote state next, finds no change. So a transition first observed by a status check never raises the loop's notification (`StatusTool.StatusCheckPreemptsLoopNotification`).
- **`cancelSession`.** It rejects with a plain error and never reaches the network. The model gives it its own error kind, `Unsupported`.

=== FILE: jules_client.dfy ===
/**
 * The request-building and error-classification logic of the Jules REST
 * client. The HTTP transport itself is an input: a request either never
 * got a response (`Unreachable`) or got one with a status code, a body and
 * whether that body parses as JSON.
 */
module JulesClient {
  import opened Wrappers
  import Text

  datatype Config = Config(apiKey: string, baseUrl: string, apiVersion: string)

  /**
   * `baseUrl.replace(/\/$/, "")` followed by `/` and the API version: one
   * trailing slash of the configured URL, if there is one, gives way to the
   * separator.
   */
  function BaseUrl(c: Config): (r: string)
    ensures Text.EndsWith(c.baseUrl, "/") ==> r == c.baseUrl + c.apiVersion
    ensures !Text.EndsWith(c.baseUrl, "/") ==> r == c.baseUrl + "/" + c.apiVersion
  {
    var clean := if |c.baseUrl| > 0 && c.baseUrl[|c.baseUrl| - 1] == '/' then c.baseUrl[..|c.baseUrl| - 1] else c.baseUrl;
    assert Text.EndsWith(c.baseUrl, "/") ==> c.baseUrl == clean + "/";
    clean + "/" + c.apiVersion
  }

  const SessionsPrefix: string := "sessions/"

  /** The full resource name of a session, from either a bare id or a resource name. */
  function ResourceName(sessionId: string): (r: string)
    ensures Text.StartsWith(r, SessionsPrefix)
    ensures Text.StartsWith(sessionId, SessionsPrefix) ==> r == sessionId
    ensures !Text.StartsWith(sessionId, SessionsPrefix) ==> r[|SessionsPrefix|..] == sessionId
  {
    if Text.StartsWith(sessionId, SessionsPrefix) then sessionId else SessionsPrefix + sessionId
  }

  /** Normalising a resource name again changes nothing. */
  lemma ResourceNameIdempotent(sessionId: string)
    ensures ResourceName(ResourceName(sessionId)) == ResourceName(sessionId)
  {
  }

  datatype AutomationMode = AutomationModeUnspecified | AutoCreatePr

  /** The caller's arguments to `createSession`. */
  datatype CreateParams = CreateParams(
    prompt: string,
    sourceName: string,
    startingBranch: string,
    title: Option<string>,
    requirePlanApproval: Option<bool>,
    automationMode: Option<AutomationMode>)

  /** JSON request bodies the client sends. */
  datatype Body =
    | CreateBody(prompt: string, source: string, startingBranch: string, title: Option<string>,
                 requirePlanApproval: bool, automationMode: AutomationMode)
    | EmptyBody
    | MessageBody(prompt: string)

  /** The body of `createSession`: `??` fills in the two omitted settings. */
  function CreateSessionBody(p: CreateParams): (b: Body)
    ensures b.CreateBody?
    ensures b.prompt == p.prompt && b.source == p.sourceName
    ensures b.startingBranch == p.startingBranch && b.title == p.title
    ensures b.requirePlanApproval <==> p.requirePlanApproval == Some(true)
    ensures p.automationMode.None? ==> b.automationMode == AutoCreatePr
    ensures p.automationMode.Some? ==> b.automationMode == p.automationMode.value
  {
    CreateBody(p.prompt, p.sourceName, p.startingBranch, p.title,
               p.requirePlanApproval.GetOr(false), p.automationMode.GetOr(AutoCreatePr))
  }

  const DefaultPageSize: int := 20

  /**
   * The query of `listSessions`: always a page size, 20 unless given, and
   * a page token only when a non-empty one is given.
   */
  function ListSessionsQuery(pageSize: Option<int>, pageToken: Option<string>): (q: seq<(string, string)>)
    ensures |q| == 1 || |q| == 2
    ensures q[0].0 == "pageSize" && Text.ParseInt(q[0].1) == Some(pageSize.GetOr(DefaultPageSize))
    ensures |q| == 2 <==> Text.Truthy(pageToken)
    ensures |q| == 2 ==> q[1] == ("pageToken", pageToken.value)
  {
    Text.IntToStringRoundTrip(pageSize.GetOr(DefaultPageSize));
    var size := [("pageSize", Text.IntToString(pageSize.GetOr(DefaultPageSize)))];
    if Text.Truthy(pageToken) then size + [("pageToken", pageToken.value)] else size
  }

  /** `URLSearchParams.toString()`, leaving out percent-encoding. */
  function QueryString(q: seq<(string, string)>): string {
    if |q| == 0 then ""
    else if |q| == 1 then q[0].0 + "=" + q[0].1
    else q[0].0 + "=" + q[0].1 + "&" + QueryString(q[1..])
  }

  datatype Method = Get | Post

  datatype Request = Request(verb: Method, path: string, body: Option<Body>)

  /** The client's operations that reach the network. */
  datatype Call =
    | CreateSession(params: CreateParams)
    | GetSession(sessionId: string)
    | ListSessions(pageSize: Option<int>, pageToken: Option<string>)
    | ApprovePlan(sessionId: string)
    | SendMessage(sessionId: string, message: string)
    | GetActivities(sessionId: string)
    | ListSources
  {
    /** Calls addressed to one session. */
    predicate SessionScoped() {
      GetSession? || ApprovePlan? || SendMessage? || GetActivities?
    }
  }

  /** The request each operation issues, relative to the base URL. */
  function RequestFor(call: Call): (r: Request)
    ensures call.SessionScoped() ==> Text.StartsWith(r.path, "/" + ResourceName(call.sessionId))
    ensures call.SessionScoped() ==> Text.StartsWith(r.path, "/sessions/")
    ensures r.verb == Get <==> r.body.None?
  {
    match call
    case CreateSession(p) => Request(Post, "/sessions", Some(CreateSessionBody(p)))
    case GetSession(id) => Request(Get, "/" + ResourceName(id), None)
    case ListSessions(size, token) => Request(Get, "/sessions?" + QueryString(ListSessionsQuery(size, token)), None)
    case ApprovePlan(id) => Request(Post, "/" + ResourceName(id) + ":approvePlan", Some(EmptyBody))
    case SendMessage(id, m) => Request(Post, "/" + ResourceName(id) + ":sendMessage", Some(MessageBody(m)))
    case GetActivities(id) => Request(Get, "/" + ResourceName(id) + "/activities", None)
    case ListSources => Request(Get, "/sources", None)
  }

  /** A session may be addressed by its bare id or by its resource name alike. */
  lemma BareIdAndResourceNameAgree(call: Call)
    requires call.SessionScoped()
    ensures RequestFor(call.(sessionId := ResourceName(call.sessionId))) == RequestFor(call)
  {
    ResourceNameIdempotent(call.sessionId);
  }

  /** What the transport produced for one request. */
  datatype Transport =
    | Unreachable(reason: string)
    | Responded(status: int, body: string, parses: bool)

  /** `response.ok`. */
  predicate IsOk(status: int) {
    200 <= status <= 299
  }

  /** The decoded result of a successful request. */
  datatype Payload = EmptyObject | Json(text: string)

  /** The errors the client raises. */
  datatype ClientError =
    | ApiError(statusCode: int, responseBody: string)
    | NetworkError(message: string)
    | Unsupported(message: string)

  /** What the body of the `try` block throws, before the `catch` sees it. */
  datatype Thrown = ThrownApiError(statusCode: int, responseBody: string) | ThrownOther(description: string)

  /** The `try` block of `request`: status check, then decoding of the text. */
  function Attempt(t: Transport): (r: Result<Payload, Thrown>)
    ensures r.Failure? && r.error.ThrownApiError? <==> t.Responded? && !IsOk(t.status)
    ensures r.Failure? && r.error.ThrownApiError? ==> r.error.statusCode == t.status && r.error.responseBody == t.body
    ensures r.Success? && r.value == EmptyObject <==> t.Responded? && IsOk(t.status) && t.body == ""
  {
    match t
    case Unreachable(reason) => Failure(ThrownOther(reason))
    case Responded(status, body, parses) =>
      if !IsOk(status) then Failure(ThrownApiError(status, body))
      else if body == "" then Success(EmptyObject)
      else if parses then Success(Json(body))
      else Failure(ThrownOther("SyntaxError: invalid JSON"))
  }

  /** The `catch` block of `request`: API errors pass through, the rest is wrapped. */
  function Catch(e: Thrown): (r: ClientError)
    ensures e.ThrownApiError? ==> r == ApiError(e.statusCode, e.responseBody)
    ensures e.ThrownOther? ==> r.NetworkError? && Text.StartsWith(r.message, "Network error calling Jules API: ")
  {
    match e
    case ThrownApiError(code, body) => ApiError(code, body)
    case ThrownOther(d) => NetworkError("Network error calling Jules API: " + d)
  }

  /** `request`: the payload, or the error the caller sees. */
  function Perform(t: Transport): (r: Result<Payload, ClientError>)
    ensures r.Failure? ==> r.error.ApiError? || r.error.NetworkError?
    ensures r.Failure? && r.error.ApiError? <==> t.Responded? && !IsOk(t.status)
    ensures r.Failure? && r.error.ApiError? ==> r.error.statusCode == t.status && r.error.responseBody == t.body
    ensures t.Unreachable? ==> r.Failure? && r.error.NetworkError?
    ensures r.Success? <==> t.Responded? && IsOk(t.status) && (t.body == "" || t.parses)
    ensures r == Success(EmptyObject) <==> t.Responded? && IsOk(t.status) && t.body == ""
  {
    match Attempt(t)
    case Success(p) => Success(p)
    case Failure(e) => Failure(Catch(e))
  }

  /** `cancelSession`: not offered by the v1alpha API, so it fails for every id. */
  function CancelSession(sessionId: string): (r: Result<(), ClientError>)
    ensures r.Failure? && r.error.Unsupported?
  {
    Failure(Unsupported("Cancel session not yet supported by Jules API v1alpha"))
  }
}

=== FILE: jules_state_machine.dfy ===
/**
 * Normalisation of the Jules API's session state vocabulary onto the
 * canonical `SessionStatus`. The input is the raw `state` string of the
 * wire record, so values outside the documented enumeration are covered.
 */
module JulesStateMachine {
  import opened Wrappers
  import opened Sessions
  import Text

  /** The eight states the mapping names explicitly. */
  const ListedStates: set<string> := {
    "QUEUED", "PLANNING", "AWAITING_PLAN_APPROVAL", "IN_PROGRESS",
    "AWAITING_USER_FEEDBACK", "COMPLETED", "FAILED", "PAUSED"
  }

  /**
   * `mapJulesStatus`: each listed state to its canonical counterpart, and
   * everything else (STATE_UNSPECIFIED included) to `in_progress`.
   */
  function MapJulesStatus(state: string): (r: SessionStatus)
    ensures r != Cancelled
    ensures r == Completed <==> state == "COMPLETED"
    ensures r == Failed <==> state == "FAILED"
    ensures state !in ListedStates ==> r == InProgress
  {
    match state
    case "QUEUED" => Queued
    case "PLANNING" => Planning
    case "AWAITING_PLAN_APPROVAL" => AwaitingPlanApproval
    case "IN_PROGRESS" => InProgress
    case "AWAITING_USER_FEEDBACK" => AwaitingFeedback
    case "COMPLETED" => Completed
    case "FAILED" => Failed
    case "PAUSED" => Paused
    case _ => InProgress
  }

  /**
   * The listed Jules state whose counterpart a canonical status is, if any;
   * an independent statement of the mapping's table, read right to left.
   */
  function JulesCounterpart(s: SessionStatus): (r: Option<string>)
    ensures r.Some? ==> r.value in ListedStates
  {
    match s
    case Queued => Some("QUEUED")
    case Planning => Some("PLANNING")
    case AwaitingPlanApproval => Some("AWAITING_PLAN_APPROVAL")
    case InProgress => Some("IN_PROGRESS")
    case AwaitingFeedback => Some("AWAITING_USER_FEEDBACK")
    case Completed => Some("COMPLETED")
    case Failed => Some("FAILED")
    case Cancelled => None
    case Paused => Some("PAUSED")
  }

  /** Every canonical status but `cancelled` is reached, from its counterpart. */
  lemma EveryStatusButCancelledReached(s: SessionStatus)
    ensures JulesCounterpart(s).Some? <==> s != Cancelled
    ensures s != Cancelled ==> MapJulesStatus(JulesCounterpart(s).value) == s
  {
  }

  /** On the listed states the mapping is undone by `JulesCounterpart`. */
  lemma ListedStatesRoundTrip(state: string)
    requires state in ListedStates
    ensures JulesCounterpart(MapJulesStatus(state)) == Some(state)
  {
  }

  /** Restricted to the listed states the mapping is injective. */
  lemma ListedStatesInjective(a: string, b: string)
    requires a in ListedStates && b in ListedStates
    requires MapJulesStatus(a) == MapJulesStatus(b)
    ensures a == b
  {
    ListedStatesRoundTrip(a);
    ListedStatesRoundTrip(b);
  }

  /** Lower-casing a literal, one character at a time. */
  lemma LowerLiteral(upper: string, lower: string)
    requires |upper| == |lower|
    requires forall i :: 0 <= i < |upper| ==> Text.LowerChar(upper[i]) == lower[i]
    ensures Text.ToLower(upper) == lower
  {
  }

  // One literal per lemma keeps each character-by-character proof small.

  lemma LowerQueued()
    ensures Text.ToLower("QUEUED") == "queued"
  {
    LowerLiteral("QUEUED", "queued");
  }

  lemma LowerPlanning()
    ensures Text.ToLower("PLANNING") == "planning"
  {
    LowerLiteral("PLANNING", "planning");
  }

  lemma LowerAwaitingPlanApproval()
    ensures Text.ToLower("AWAITING_PLAN_APPROVAL") == "awaiting_plan_approval"
  {
    LowerLiteral("AWAITING_PLAN_APPROVAL", "awaiting_plan_approval");
  }

  lemma LowerInProgress()
    ensures Text.ToLower("IN_PROGRESS") == "in_progress"
  {
    LowerLiteral("IN_PROGRESS", "in_progress");
  }

  lemma LowerCompleted()
    ensures Text.ToLower("COMPLETED") == "completed"
  {
    LowerLiteral("COMPLETED", "completed");
  }

  lemma LowerFailed()
    ensures Text.ToLower("FAILED") == "failed"
  {
    LowerLiteral("FAILED", "failed");
  }

  lemma LowerPaused()
    ensures Text.ToLower("PAUSED") == "paused"
  {
    LowerLiteral("PAUSED", "paused");
  }

  /**
   * Each listed Jules state maps to its own name in lower case: for every
   * canonical status but `cancelled` and `awaiting_feedback`, lower-casing
   * the Jules state mapped onto it gives the status name. (`awaiting_feedback`
   * is reached from AWAITING_USER_FEEDBACK.)
   */
  lemma LowerCaseCounterpart(s: SessionStatus)
    requires s != Cancelled && s != AwaitingFeedback
    ensures Text.ToLower(JulesCounterpart(s).value) == s.Name()
  {
    match s
    case Queued => LowerQueued();
    case Planning => LowerPlanning();
    case AwaitingPlanApproval => LowerAwaitingPlanApproval();
    case InProgress => LowerInProgress();
    case Completed => LowerCompleted();
    case Failed => LowerFailed();
    case Paused => LowerPaused();
  }
}

=== FILE: list_tool.dfy ===
/**
 * The `list` command: every tracked session, newest first, one entry each.
 *
 * The source sorts a copy with `Array.prototype.sort`, which is stable, and a
 * comparator ordering by descending `createdAt`; the model sorts the same way
 * by insertion and proves the result sorted, stable and a permutation.
 */
module ListTool {
  import opened Wrappers
  import opened Sessions
  import Text

  const NoSessionsText: string := "No cloud worker sessions found."

  /** How many characters of the prompt an entry shows. */
  const PromptExcerpt: nat := 50

  predicate NewestFirst(s: seq<TrackedSession>) {
    forall i, j :: 0 <= i < j < |s| ==> s[i].createdAt >= s[j].createdAt
  }

  /** The sessions created at time `t`, in their order in `s`. */
  function CreatedAt(s: seq<TrackedSession>, t: int): (r: seq<TrackedSession>)
    ensures |r| <= |s|
    decreases |s|
  {
    if |s| == 0 then []
    else (if s[0].createdAt == t then [s[0]] else []) + CreatedAt(s[1..], t)
  }

  lemma CreatedAtCons(x: TrackedSession, s: seq<TrackedSession>, t: int)
    ensures CreatedAt([x] + s, t) == (if x.createdAt == t then [x] else []) + CreatedAt(s, t)
  {
    assert ([x] + s)[1..] == s;
  }

  /** Puts `x` in front of the first session not newer than it. */
  function Insert(x: TrackedSession, s: seq<TrackedSession>): (r: seq<TrackedSession>)
    requires NewestFirst(s)
    ensures NewestFirst(r)
    ensures multiset(r) == multiset(s) + multiset{x}
    ensures |r| == |s| + 1
    decreases |s|
  {
    if |s| == 0 || s[0].createdAt <= x.createdAt then
      assert multiset([x] + s) == multiset{x} + multiset(s);
      [x] + s
    else
      var rest := Insert(x, s[1..]);
      assert s == [s[0]] + s[1..];
      assert multiset(s) == multiset{s[0]} + multiset(s[1..]);
      OlderThanHead(x, s, rest);
      ConsKeepsNewestFirst(s[0], rest);
      assert multiset([s[0]] + rest) == multiset{s[0]} + multiset(rest);
      [s[0]] + rest
  }

  lemma ConsKeepsNewestFirst(h: TrackedSession, rest: seq<TrackedSession>)
    requires NewestFirst(rest)
    requires forall k :: 0 <= k < |rest| ==> rest[k].createdAt <= h.createdAt
    ensures NewestFirst([h] + rest)
  {
    var r := [h] + rest;
    assert forall k :: 1 <= k < |r| ==> r[k] == rest[k - 1];
  }

  /** What goes behind the head of `s` is no newer than that head. */
  lemma OlderThanHead(x: TrackedSession, s: seq<TrackedSession>, rest: seq<TrackedSession>)
    requires NewestFirst(s) && |s| > 0 && x.createdAt < s[0].createdAt
    requires multiset(rest) == multiset(s[1..]) + multiset{x}
    ensures forall k :: 0 <= k < |rest| ==> rest[k].createdAt <= s[0].createdAt
  {
    forall k | 0 <= k < |rest|
      ensures rest[k].createdAt <= s[0].createdAt
    {
      assert rest[k] in multiset(rest);
      if rest[k] != x {
        assert rest[k] in multiset(s[1..]);
        var m :| 0 <= m < |s[1..]| && s[1..][m] == rest[k];
        assert s[m + 1] == rest[k];
      }
    }
  }

  /** Inserting `x` keeps every group of equally old sessions in order, `x` first in its group. */
  lemma {:induction false} InsertIsStable(x: TrackedSession, s: seq<TrackedSession>, t: int)
    requires NewestFirst(s)
    ensures CreatedAt(Insert(x, s), t) == (if x.createdAt == t then [x] else []) + CreatedAt(s, t)
    decreases |s|
  {
    if |s| == 0 || s[0].createdAt <= x.createdAt {
      CreatedAtCons(x, s, t);
    } else {
      var rest := Insert(x, s[1..]);
      assert Insert(x, s) == [s[0]] + rest;
      InsertIsStable(x, s[1..], t);
      StableBehindOlderHead(s[0], x, rest, s[1..], t);
      assert s == [s[0]] + s[1..];
    }
  }

  /**
   * A head older than `x` can go in front without disturbing the groups:
   * `x` and the head never join the same group of `t`.
   */
  lemma StableBehindOlderHead(h: TrackedSession, x: TrackedSession, rest: seq<TrackedSession>, tail: seq<TrackedSession>, t: int)
    requires x.createdAt < h.createdAt
    requires CreatedAt(rest, t) == (if x.createdAt == t then [x] else []) + CreatedAt(tail, t)
    ensures CreatedAt([h] + rest, t) == (if x.createdAt == t then [x] else []) + CreatedAt([h] + tail, t)
  {
    CreatedAtCons(h, rest, t);
    CreatedAtCons(h, tail, t);
  }

  /** Inserting the head of `s` into a permutation of its tail permutes `s`. */
  lemma InsertHeadPermutes(s: seq<TrackedSession>, sorted: seq<TrackedSession>)
    requires |s| > 0 && NewestFirst(sorted)
    requires multiset(sorted) == multiset(s[1..])
    ensures multiset(Insert(s[0], sorted)) == multiset(s)
  {
    assert s == [s[0]] + s[1..];
    assert multiset(s) == multiset{s[0]} + multiset(s[1..]);
  }

  /** Inserting the head of `s` into a stable arrangement of its tail arranges `s` stably. */
  lemma InsertHeadIsStable(s: seq<TrackedSession>, sorted: seq<TrackedSession>)
    requires |s| > 0 && NewestFirst(sorted)
    requires forall t :: CreatedAt(sorted, t) == CreatedAt(s[1..], t)
    ensures forall t :: CreatedAt(Insert(s[0], sorted), t) == CreatedAt(s, t)
  {
    forall t
      ensures CreatedAt(Insert(s[0], sorted), t) == CreatedAt(s, t)
    {
      InsertIsStable(s[0], sorted, t);
      CreatedAtCons(s[0], s[1..], t);
      assert s == [s[0]] + s[1..];
    }
  }

  /**
   * `[...sessions].sort((a, b) => b.createdAt - a.createdAt)`: newest first,
   * a permutation of the input, and sessions created at the same time keep
   * their relative order.
   */
  function SortNewestFirst(s: seq<TrackedSession>): (r: seq<TrackedSession>)
    ensures NewestFirst(r)
    ensures multiset(r) == multiset(s)
    ensures |r| == |s|
    ensures forall t :: CreatedAt(r, t) == CreatedAt(s, t)
    decreases |s|
  {
    if |s| == 0 then []
    else
      var sorted := SortNewestFirst(s[1..]);
      InsertHeadPermutes(s, sorted);
      InsertHeadIsStable(s, sorted);
      Insert(s[0], sorted)
  }

  /** One entry: upper-cased status, local and remote id, and the start of the prompt. */
  function Line(s: TrackedSession): (r: string)
    ensures Text.StartsWith(r, "- [" + Text.ToUpper(s.status.Name()) + "] " + s.id + " (Remote: " + s.remoteSessionId + ")")
    ensures Text.EndsWith(r, "\n  \"" + Text.Take(s.prompt, PromptExcerpt) + "...\"")
    ensures Text.StartsWith(s.prompt, Text.Take(s.prompt, PromptExcerpt)) && |Text.Take(s.prompt, PromptExcerpt)| <= PromptExcerpt
  {
    "- [" + Text.ToUpper(s.status.Name()) + "] " + s.id + " (Remote: " + s.remoteSessionId + ")"
    + "\n  \"" + Text.Take(s.prompt, PromptExcerpt) + "...\""
  }

  /** One entry per session, in the given order. */
  function Lines(s: seq<TrackedSession>): (r: seq<string>)
    ensures |r| == |s|
    ensures forall i :: 0 <= i < |s| ==> r[i] == Line(s[i])
    decreases |s|
  {
    if |s| == 0 then [] else [Line(s[0])] + Lines(s[1..])
  }

  function Header(count: nat): string {
    "Found " + Text.IntToString(count) + " sessions:\n\n"
  }

  /** `execute` of the list tool. */
  function List(sessions: seq<TrackedSession>): (r: string)
    ensures |sessions| == 0 ==> r == NoSessionsText
    ensures |sessions| > 0 ==> Text.StartsWith(r, Header(|sessions|))
  {
    if |sessions| == 0 then NoSessionsText
    else Header(|sessions|) + Text.Join(Lines(SortNewestFirst(sessions)), "\n\n")
  }

  /**
   * The entries of a non-empty listing: exactly one per session, drawn from
   * a newest-first permutation of the store's list; the text opens, after
   * the header, with the newest session's entry and closes with the oldest's.
   */
  lemma ListShowsEverySessionOnce(sessions: seq<TrackedSession>)
    requires |sessions| > 0
    ensures var sorted := SortNewestFirst(sessions);
            && Text.StartsWith(List(sessions), Header(|sessions|) + Line(sorted[0]))
            && Text.EndsWith(List(sessions), Line(sorted[|sorted| - 1]))
            && |Lines(sorted)| == |sessions|
            && NewestFirst(sorted)
            && multiset(sorted) == multiset(sessions)
  {
    var sorted := SortNewestFirst(sessions);
    var lines := Lines(sorted);
    var body := Text.Join(lines, "\n\n");
    assert lines[0] == Line(sorted[0]) && lines[|lines| - 1] == Line(sorted[|sorted| - 1]);
    Text.PrefixBehindHead(Header(|sessions|), body, lines[0]);
    Text.SuffixBehindHead(Header(|sessions|), body, lines[|lines| - 1]);
  }

  /**
   * The listing shows the sessions' entries in newest-first order: for
   * every `k`, the header followed by the first `k` entries, joined by a
   * blank line, opens the text.
   */
  lemma ListedInOrder(sessions: seq<TrackedSession>, k: nat)
    requires 0 < k <= |sessions|
    ensures var entries := Lines(SortNewestFirst(sessions));
            Text.StartsWith(List(sessions), Header(|sessions|) + Text.Join(entries[..k], "\n\n"))
  {
    var entries := Lines(SortNewestFirst(sessions));
    Text.JoinKeepsPrefix(entries, "\n\n", k);
    Text.PrefixBehindHead(Header(|sessions|), Text.Join(entries, "\n\n"), Text.Join(entries[..k], "\n\n"));
  }

  /**
   * The listing is exactly as long as the header, one entry per session and
   * a blank line between neighbours. With `ListedInOrder` at `k = |sessions|`
   * this leaves room for no further text: each session is shown once.
   */
  lemma ListLength(sessions: seq<TrackedSession>)
    requires |sessions| > 0
    ensures |List(sessions)| == |Header(|sessions|)| + Text.SumLen(Lines(SortNewestFirst(sessions))) + 2 * (|sessions| - 1)
  {
    Text.JoinLength(Lines(SortNewestFirst(sessions)), "\n\n");
  }

  /** The count in the header reads back as the number of sessions. */
  lemma HeaderCountsSessions(sessions: seq<TrackedSession>)
    ensures var h := Header(|sessions|);
            var digits := h[|"Found "|..|h| - |" sessions:\n\n"|];
            Text.ParseInt(digits) == Some(|sessions|)
  {
    var d := Text.IntToString(|sessions|);
    var h := Header(|sessions|);
    assert h[|"Found "|..|h| - |" sessions:\n\n"|] == d;
    Text.IntToStringRoundTrip(|sessions|);
  }
}

=== FILE: reconciliation_loop.dfy ===
/**
 * `CloudWorkerLoop`, the background reconciliation loop.
 *
 * The loop's own state is the pair (timer set?, poll running?). Timers and
 * asynchronous interleaving become explicit events: `Start`, `Stop`, a timer
 * `Tick`, and `PollFinished` for the `finally` block of a running poll.
 * A poll cycle itself is a pure function of the pending sessions, the
 * outcome of each `getSession` call and the clock.
 */
module ReconciliationLoop {
  import opened Wrappers
  import opened Sessions
  import Text

  // ---------------------------------------------------------------------
  // The scheduler
  // ---------------------------------------------------------------------

  /** `intervalActive`: `intervalId` is set; `isPolling`: a poll is running. */
  datatype LoopState = LoopState(intervalActive: bool, isPolling: bool)

  const Stopped: LoopState := LoopState(false, false)

  datatype Event = Start | Stop | Tick | PollFinished

  /** The state after an event, and whether the event began a poll cycle. */
  datatype StepOutcome = StepOutcome(next: LoopState, pollBegun: bool)

  /** The guard at the top of `poll`: a second concurrent poll returns at once. */
  function BeginPoll(s: LoopState): (r: StepOutcome)
    ensures r.pollBegun <==> !s.isPolling
    ensures r.next == s.(isPolling := true)
  {
    if s.isPolling then StepOutcome(s, false) else StepOutcome(s.(isPolling := true), true)
  }

  /** The effect of one event on the loop. */
  function Step(s: LoopState, e: Event): (r: StepOutcome)
    ensures e == Start && s.intervalActive ==> r == StepOutcome(s, false)
    ensures e == Start && !s.intervalActive ==> r.next == LoopState(true, true) && (r.pollBegun <==> !s.isPolling)
    ensures e == Stop ==> !r.next.intervalActive && r.next.isPolling == s.isPolling && !r.pollBegun
    ensures e == Tick && s.isPolling ==> r == StepOutcome(s, false)
    ensures e == Tick && !s.intervalActive ==> r == StepOutcome(s, false)
    ensures e == Tick && s.intervalActive && !s.isPolling ==> r == StepOutcome(s.(isPolling := true), true)
    ensures e == PollFinished ==> !r.next.isPolling && r.next.intervalActive == s.intervalActive && !r.pollBegun
    ensures r.pollBegun ==> !s.isPolling && r.next.isPolling
  {
    match e
    case Start =>
      if s.intervalActive then StepOutcome(s, false)
      else
        var b := BeginPoll(s);
        StepOutcome(b.next.(intervalActive := true), b.pollBegun)
    case Stop => StepOutcome(s.(intervalActive := false), false)
    case Tick => if s.intervalActive then BeginPoll(s) else StepOutcome(s, false)
    case PollFinished => StepOutcome(s.(isPolling := false), false)
  }

  /** Events that can happen: ticks only while a timer is set, a finish only while a poll runs. */
  predicate CanHappen(s: LoopState, e: Event) {
    (e == Tick ==> s.intervalActive) && (e == PollFinished ==> s.isPolling)
  }

  /** The end state of a run of events, with the polls begun and finished on the way. */
  datatype Run = Run(final: LoopState, begun: nat, finished: nat)

  function RunEvents(s: LoopState, events: seq<Event>): Run
    decreases |events|
  {
    if |events| == 0 then Run(s, 0, 0)
    else
      var o := Step(s, events[0]);
      var rest := RunEvents(o.next, events[1..]);
      Run(rest.final,
          rest.begun + (if o.pollBegun then 1 else 0),
          rest.finished + (if events[0] == PollFinished then 1 else 0))
  }

  /** Every event of the run can happen in the state it arrives in. */
  predicate Feasible(s: LoopState, events: seq<Event>)
    decreases |events|
  {
    |events| == 0 || (CanHappen(s, events[0]) && Feasible(Step(s, events[0]).next, events[1..]))
  }

  function InFlight(s: LoopState): nat {
    if s.isPolling then 1 else 0
  }

  /**
   * Single flight: along any feasible run, polls begun minus polls finished
   * is exactly the number running at the end, which is at most one.
   */
  lemma {:induction false} SingleFlight(s: LoopState, events: seq<Event>)
    requires Feasible(s, events)
    ensures InFlight(s) + RunEvents(s, events).begun == RunEvents(s, events).finished + InFlight(RunEvents(s, events).final)
    decreases |events|
  {
    if |events| > 0 {
      SingleFlight(Step(s, events[0]).next, events[1..]);
    }
  }

  /** From an idle loop, no run ever has two polls in flight. */
  lemma AtMostOnePollInFlight(s: LoopState, events: seq<Event>)
    requires !s.isPolling && Feasible(s, events)
    ensures RunEvents(s, events).begun <= RunEvents(s, events).finished + 1
  {
    SingleFlight(s, events);
  }

  function Repeat(e: Event, k: nat): (r: seq<Event>)
    ensures |r| == k && forall i :: 0 <= i < k ==> r[i] == e
  {
    if k == 0 then [] else [e] + Repeat(e, k - 1)
  }

  /** `start` while a timer is set does nothing, however often it is called. */
  lemma {:induction false} StartWhileRunningIsNoOp(s: LoopState, k: nat)
    requires s.intervalActive
    ensures RunEvents(s, Repeat(Start, k)) == Run(s, 0, 0)
    decreases k
  {
    if k > 0 {
      assert Repeat(Start, k)[1..] == Repeat(Start, k - 1);
      StartWhileRunningIsNoOp(s, k - 1);
    }
  }

  /** Any number of `start` calls on a stopped loop: one immediate poll, one timer. */
  lemma StartIsIdempotent(k: nat)
    requires k >= 1
    ensures RunEvents(Stopped, Repeat(Start, k)) == Run(LoopState(true, true), 1, 0)
  {
    assert Repeat(Start, k)[1..] == Repeat(Start, k - 1);
    StartWhileRunningIsNoOp(LoopState(true, true), k - 1);
  }

  /** `stop` twice is `stop` once. */
  lemma StopIsIdempotent(s: LoopState)
    ensures Step(Step(s, Stop).next, Stop) == Step(s, Stop)
  {
  }

  /**
   * Once stopped, the loop begins no poll until it is started again; a poll
   * already running is left to finish.
   */
  lemma {:induction false} StoppedLoopStaysQuiet(s: LoopState, events: seq<Event>)
    requires !s.intervalActive
    requires forall i :: 0 <= i < |events| ==> events[i] != Start
    ensures RunEvents(s, events).begun == 0
    ensures !RunEvents(s, events).final.intervalActive
    decreases |events|
  {
    if |events| > 0 {
      StoppedLoopStaysQuiet(Step(s, events[0]).next, events[1..]);
    }
  }

  // ---------------------------------------------------------------------
  // Notifications
  // ---------------------------------------------------------------------

  datatype Variant = Info | Success | Warning | Error

  datatype Notification = Notification(title: string, message: string, variant: Variant)

  /** The notification for a session whose status changed to `next`. */
  function ChangeNotification(s: TrackedSession, next: SessionStatus): (n: Notification)
    ensures n.variant == Variant.Success <==> next == Completed
    ensures n.variant == Info <==> next != Completed
    ensures Text.EndsWith(n.title, next.Name())
  {
    Notification(
      "Cloud Worker Update: " + next.Name(),
      "Session for \"" + Text.Take(s.prompt, 30) + "...\" is now " + next.Name() + ".",
      if next == Completed then Variant.Success else Info)
  }

  /** What `notifyUser` finds to deliver through. */
  datatype Sink = ToastApi(fails: bool) | NoToastApi

  /** How a notification ended up; no outcome is an error the caller sees. */
  datatype Delivery = ToastShown(n: Notification) | ConsoleLine(text: string) | FailureLogged

  /** `notifyUser`: a toast when the client offers one, a console line otherwise. */
  function NotifyUser(sink: Sink, n: Notification): (d: Delivery)
    ensures d.FailureLogged? <==> sink == ToastApi(true)
    ensures sink == ToastApi(false) ==> d == ToastShown(n)
    ensures sink == NoToastApi ==> d.ConsoleLine?
    ensures d.ToastShown? ==> d.n == n
    ensures d.ConsoleLine? ==> Text.StartsWith(d.text, "[NOTIFICATION] " + n.title)
  {
    match sink
    case ToastApi(fails) => if fails then FailureLogged else ToastShown(n)
    case NoToastApi => ConsoleLine("[NOTIFICATION] " + n.title + ": " + n.message)
  }

  // ---------------------------------------------------------------------
  // One poll cycle
  // ---------------------------------------------------------------------

  datatype Update = Update(sessionId: string, patch: Patch)

  /** The store update and the notification raised for one changed session. */
  datatype Change = Change(update: Update, notification: Notification)

  /** What one pending session came to in a cycle. */
  datatype SessionEffect = Unchanged | Changed(change: Change) | PollFailed(error: ProviderError)

  /**
   * The body of the loop for one session: compare the remote status with the
   * stored one, and on a difference write status, message, console URL and
   * time, and notify.
   */
  function Reconcile(s: TrackedSession, o: RemoteOutcome, now: int): (r: SessionEffect)
    ensures r.PollFailed? <==> o.FetchFailed?
    ensures r.Changed? <==> o.Fetched? && o.state.status != s.status
    ensures r.Changed? ==> r.change.update.sessionId == s.id
    ensures r.Changed? ==> var p := r.change.update.patch;
              p.status.Some? && p.statusMessage.Some? && p.consoleUrl.Some? && p.updatedAt.Some?
    ensures r.Changed? ==> var u := ApplyPatch(s, r.change.update.patch);
              && u.status == o.state.status
              && u.statusMessage == o.state.statusMessage
              && u.consoleUrl == DetailsUrl(o.state)
              && u.updatedAt == now
    ensures r.Changed? ==> r.change.notification == ChangeNotification(s, o.state.status)
  {
    match o
    case FetchFailed(e) => PollFailed(e)
    case Fetched(st) =>
      if st.status == s.status then Unchanged
      else
        var p := Patch(Some(st.status), Some(st.statusMessage), Some(DetailsUrl(st)), Some(now));
        Changed(Change(Update(s.id, p), ChangeNotification(s, st.status)))
  }

  /** Once an update is applied, the same remote state is no longer a change. */
  lemma ReconcileConverges(s: TrackedSession, o: RemoteOutcome, now: int, later: int)
    requires Reconcile(s, o, now).Changed?
    ensures Reconcile(ApplyPatch(s, Reconcile(s, o, now).change.update.patch), o, later) == Unchanged
  {
  }

  /** Each pending session's effect, in order; one session's outcome touches only its own effect. */
  function Effects(pending: seq<TrackedSession>, outcomes: seq<RemoteOutcome>, now: int): (r: seq<SessionEffect>)
    requires |outcomes| == |pending|
    ensures |r| == |pending|
    ensures forall i :: 0 <= i < |pending| ==> r[i] == Reconcile(pending[i], outcomes[i], now)
    decreases |pending|
  {
    if |pending| == 0 then []
    else [Reconcile(pending[0], outcomes[0], now)] + Effects(pending[1..], outcomes[1..], now)
  }

  /** The changes among the effects, in session order. */
  function Changes(effects: seq<SessionEffect>): (r: seq<Change>)
    ensures |r| <= |effects|
    ensures forall c :: c in r <==> Changed(c) in effects
    ensures r == [] <==> forall i :: 0 <= i < |effects| ==> !effects[i].Changed?
    decreases |effects|
  {
    if |effects| == 0 then []
    else
      var rest := Changes(effects[1..]);
      assert forall c :: Changed(c) in effects <==> effects[0] == Changed(c) || Changed(c) in effects[1..];
      if effects[0].Changed? then [effects[0].change] + rest else rest
  }

  /**
   * The changes of consecutive stretches of effects are the changes of each
   * stretch, in order: with the one-effect case, which keeps exactly the
   * change of a changed effect, this fixes both the order and the count.
   */
  lemma {:induction false} ChangesAppend(a: seq<SessionEffect>, b: seq<SessionEffect>)
    ensures Changes(a + b) == Changes(a) + Changes(b)
    decreases |a|
  {
    if |a| == 0 {
      assert a + b == b;
    } else {
      assert (a + b)[1..] == a[1..] + b;
      ChangesAppend(a[1..], b);
    }
  }

  /** A single effect contributes its change if it has one, and nothing otherwise. */
  lemma ChangesOfOne(e: SessionEffect)
    ensures Changes([e]) == if e.Changed? then [e.change] else []
  {
  }

  /** The full record of one cycle: provider calls, effects, changes, deliveries. */
  datatype Cycle = Cycle(
    polled: seq<string>,
    effects: seq<SessionEffect>,
    changes: seq<Change>,
    deliveries: seq<Delivery>)

  /** Per change, the delivery of its notification. */
  function Deliver(sink: Sink, changes: seq<Change>): (r: seq<Delivery>)
    ensures |r| == |changes|
    ensures forall i :: 0 <= i < |changes| ==> r[i] == NotifyUser(sink, changes[i].notification)
    decreases |changes|
  {
    if |changes| == 0 then []
    else [NotifyUser(sink, changes[0].notification)] + Deliver(sink, changes[1..])
  }

  /** The remote ids `getSession` is called with, in order. */
  function RemoteIds(pending: seq<TrackedSession>): (r: seq<string>)
    ensures |r| == |pending|
    ensures forall i :: 0 <= i < |pending| ==> r[i] == pending[i].remoteSessionId
    decreases |pending|
  {
    if |pending| == 0 then [] else [pending[0].remoteSessionId] + RemoteIds(pending[1..])
  }

  /**
   * The `try` block of `poll` once the guard has passed: every pending
   * session is polled once, in order, whatever happened to the others.
   */
  function RunCycle(pending: seq<TrackedSession>, outcomes: seq<RemoteOutcome>, now: int, sink: Sink): (r: Cycle)
    requires |outcomes| == |pending|
    ensures |r.polled| == |pending|
    ensures forall i :: 0 <= i < |pending| ==> r.polled[i] == pending[i].remoteSessionId
    ensures |r.effects| == |pending|
    ensures forall i :: 0 <= i < |pending| ==> r.effects[i] == Reconcile(pending[i], outcomes[i], now)
    ensures r.changes == Changes(r.effects)
    ensures |r.deliveries| == |r.changes|
    ensures forall i :: 0 <= i < |r.changes| ==> r.deliveries[i] == NotifyUser(sink, r.changes[i].notification)
  {
    if |pending| == 0 then Cycle([], [], [], [])
    else
      var effects := Effects(pending, outcomes, now);
      var changes := Changes(effects);
      Cycle(RemoteIds(pending), effects, changes, Deliver(sink, changes))
  }

  /** A whole call of `poll`: the guard, the cycle, and the `finally` block. */
  datatype PollRun = PollRun(next: LoopState, cycle: Cycle)

  function Poll(s: LoopState, pending: seq<TrackedSession>, outcomes: seq<RemoteOutcome>, now: int, sink: Sink): (r: PollRun)
    requires |outcomes| == |pending|
    ensures s.isPolling ==> r.next == s && r.cycle == Cycle([], [], [], [])
    ensures !s.isPolling ==> r.next == s.(isPolling := false)
    ensures !s.isPolling ==> r.cycle == RunCycle(pending, outcomes, now, sink)
  {
    var b := BeginPoll(s);
    if !b.pollBegun then PollRun(s, Cycle([], [], [], []))
    else PollRun(Step(b.next, PollFinished).next, RunCycle(pending, outcomes, now, sink))
  }

  /** A cycle that sees no status change updates nothing and notifies nobody. */
  lemma QuietCycle(pending: seq<TrackedSession>, outcomes: seq<RemoteOutcome>, now: int, sink: Sink)
    requires |outcomes| == |pending|
    requires forall i :: 0 <= i < |pending| && outcomes[i].Fetched? ==> outcomes[i].state.status == pending[i].status
    ensures RunCycle(pending, outcomes, now, sink).changes == []
    ensures RunCycle(pending, outcomes, now, sink).deliveries == []
  {
  }

  /** Exactly one changed session gives exactly one update and one notification. */
  lemma {:induction false} SingleChange(effects: seq<SessionEffect>, j: nat)
    requires j < |effects| && effects[j].Changed?
    requires forall i :: 0 <= i < |effects| && i != j ==> !effects[i].Changed?
    ensures Changes(effects) == [effects[j].change]
    decreases |effects|
  {
    if j > 0 {
      SingleChange(effects[1..], j - 1);
    }
  }

  /** Local ids are unique among the pending sessions. */
  predicate DistinctIds(pending: seq<TrackedSession>) {
    forall i, j :: 0 <= i < j < |pending| ==> pending[i].id != pending[j].id
  }

  predicate Updated(changes: seq<Change>, id: string) {
    exists c :: c in changes && c.update.sessionId == id
  }

  /** A session is updated (and notified) exactly when its remote status differs. */
  lemma UpdatedIffStatusDiffers(pending: seq<TrackedSession>, outcomes: seq<RemoteOutcome>, now: int, sink: Sink, i: nat)
    requires |outcomes| == |pending| && DistinctIds(pending) && i < |pending|
    ensures Updated(RunCycle(pending, outcomes, now, sink).changes, pending[i].id)
            <==> outcomes[i].Fetched? && outcomes[i].state.status != pending[i].status
  {
    var r := RunCycle(pending, outcomes, now, sink);
    if outcomes[i].Fetched? && outcomes[i].state.status != pending[i].status {
      assert Changed(r.effects[i].change) in r.effects;
    }
    if Updated(r.changes, pending[i].id) {
      var c :| c in r.changes && c.update.sessionId == pending[i].id;
      var k :| 0 <= k < |r.effects| && r.effects[k] == Changed(c);
      assert pending[k].id == pending[i].id;
    }
  }

  /**
   * Fault isolation: if `getSession` fails for session `j`, the cycle is the
   * same except that `j` is left alone; every session is still polled.
   */
  lemma FailureIsIsolated(pending: seq<TrackedSession>, outcomes: seq<RemoteOutcome>, now: int, sink: Sink, j: nat, e: ProviderError)
    requires |outcomes| == |pending| && j < |pending|
    ensures var failed := RunCycle(pending, outcomes[j := FetchFailed(e)], now, sink);
            && failed.polled == RunCycle(pending, outcomes, now, sink).polled
            && failed.effects == RunCycle(pending, outcomes, now, sink).effects[j := PollFailed(e)]
  {
    EffectsWithOneFailure(pending, outcomes, now, j, e);
  }

  lemma EffectsWithOneFailure(pending: seq<TrackedSession>, outcomes: seq<RemoteOutcome>, now: int, j: nat, e: ProviderError)
    requires |outcomes| == |pending| && j < |pending|
    ensures Effects(pending, outcomes[j := FetchFailed(e)], now) == Effects(pending, outcomes, now)[j := PollFailed(e)]
  {
    var failed := Effects(pending, outcomes[j := FetchFailed(e)], now);
    var normal := Effects(pending, outcomes, now);
    assert forall i :: 0 <= i < |pending| ==> failed[i] == normal[j := PollFailed(e)][i];
  }

  /** A failing notification sink changes nothing about what the cycle polls or updates. */
  lemma SinkFailureIsHarmless(pending: seq<TrackedSession>, outcomes: seq<RemoteOutcome>, now: int, sink: Sink)
    requires |outcomes| == |pending|
    ensures RunCycle(pending, outcomes, now, ToastApi(true)).polled == RunCycle(pending, outcomes, now, sink).polled
    ensures RunCycle(pending, outcomes, now, ToastApi(true)).changes == RunCycle(pending, outcomes, now, sink).changes
  {
  }

  /** The pending sessions as the store holds them after the cycle's updates. */
  function Advance(pending: seq<TrackedSession>, effects: seq<SessionEffect>): (r: seq<TrackedSession>)
    requires |effects| == |pending|
    ensures |r| == |pending|
  {
    seq(|pending|, i requires 0 <= i < |pending| =>
      if effects[i].Changed? then ApplyPatch(pending[i], effects[i].change.update.patch) else pending[i])
  }

  /**
   * What a cycle writes back: a session whose fetch came back with another
   * status takes the remote status, message and console URL and the cycle's
   * time; every other session, failed fetches included, is left as it was.
   */
  lemma CycleFollowsRemote(pending: seq<TrackedSession>, outcomes: seq<RemoteOutcome>, now: int, sink: Sink)
    requires |outcomes| == |pending|
    ensures var after := Advance(pending, RunCycle(pending, outcomes, now, sink).effects);
            forall i :: 0 <= i < |pending| ==>
              && after[i].status == (if outcomes[i].Fetched? then outcomes[i].state.status else pending[i].status)
              && (outcomes[i].Fetched? && outcomes[i].state.status != pending[i].status ==>
                    && after[i].statusMessage == outcomes[i].state.statusMessage
                    && after[i].consoleUrl == DetailsUrl(outcomes[i].state)
                    && after[i].updatedAt == now
                    && after[i].(status := pending[i].status, statusMessage := pending[i].statusMessage,
                                 consoleUrl := pending[i].consoleUrl, updatedAt := pending[i].updatedAt) == pending[i])
              && (!(outcomes[i].Fetched? && outcomes[i].state.status != pending[i].status) ==> after[i] == pending[i])
  {
  }

  /** Re-polling the updated sessions against the same remote truth is quiet: no duplicate notifications. */
  lemma CycleConverges(pending: seq<TrackedSession>, outcomes: seq<RemoteOutcome>, now: int, later: int, sink: Sink)
    requires |outcomes| == |pending|
    ensures RunCycle(Advance(pending, RunCycle(pending, outcomes, now, sink).effects), outcomes, later, sink).changes == []
  {
    var after := Advance(pending, RunCycle(pending, outcomes, now, sink).effects);
    forall i | 0 <= i < |after| && outcomes[i].Fetched?
      ensures outcomes[i].state.status == after[i].status
    {
    }
    QuietCycle(after, outcomes, later, sink);
  }

  /** With a clock that does not run backwards, the cycle keeps every record well formed. */
  lemma CycleKeepsWellFormed(pending: seq<TrackedSession>, outcomes: seq<RemoteOutcome>, now: int, sink: Sink)
    requires |outcomes| == |pending|
    requires forall i :: 0 <= i < |pending| ==> WellFormed(pending[i]) && pending[i].updatedAt <= now
    ensures forall i :: 0 <= i < |pending| ==> WellFormed(Advance(pending, RunCycle(pending, outcomes, now, sink).effects)[i])
  {
    var effects := RunCycle(pending, outcomes, now, sink).effects;
    forall i | 0 <= i < |pending|
      ensures WellFormed(Advance(pending, effects)[i])
    {
      if effects[i].Changed? {
        ApplyPatchKeepsWellFormed(pending[i], effects[i].change.update.patch);
      }
    }
  }
}

=== FILE: sessions.dfy ===
/**
 * The provider-independent vocabulary of the plugin: the canonical session
 * status, the locally tracked session record, the remote state a provider
 * reports, and the partial update ("patch") callers hand to the session
 * store.
 */
module Sessions {
  import opened Wrappers

  /** The canonical status every provider's vocabulary is normalised to. */
  datatype SessionStatus =
    | Queued
    | Planning
    | AwaitingPlanApproval
    | InProgress
    | AwaitingFeedback
    | Completed
    | Failed
    | Cancelled
    | Paused
  {
    /** The status as the string the rest of the plugin prints and compares. */
    function Name(): string {
      match this
      case Queued => "queued"
      case Planning => "planning"
      case AwaitingPlanApproval => "awaiting_plan_approval"
      case InProgress => "in_progress"
      case AwaitingFeedback => "awaiting_feedback"
      case Completed => "completed"
      case Failed => "failed"
      case Cancelled => "cancelled"
      case Paused => "paused"
    }
  }

  /** A structured error reported by a provider: `{code, message}`. */
  datatype ErrorInfo = ErrorInfo(code: string, message: string)

  /** A failure raised by a provider call, as the text `${e}` renders it. */
  datatype ProviderError = ProviderError(description: string)

  /**
   * One remote session as tracked locally. Timestamps are integers; the
   * source stores ISO strings.
   */
  datatype TrackedSession = TrackedSession(
    id: string,
    provider: string,
    remoteSessionId: string,
    repo: string,
    branch: string,
    prompt: string,
    title: Option<string>,
    status: SessionStatus,
    statusMessage: Option<string>,
    consoleUrl: Option<string>,
    error: Option<ErrorInfo>,
    autoReview: bool,
    reviewRound: int,
    maxReviewRounds: int,
    autoMerge: bool,
    merged: bool,
    watching: bool,
    inFlight: bool,
    createdAt: int,
    updatedAt: int)

  /** A record is well formed when it was not updated before it was created. */
  predicate WellFormed(s: TrackedSession) {
    s.createdAt <= s.updatedAt && 0 <= s.reviewRound <= s.maxReviewRounds
  }

  /** What `getSession` reports about a remote session. */
  datatype SessionState = SessionState(
    sessionId: string,
    status: SessionStatus,
    statusMessage: Option<string>,
    details: Option<map<string, string>>,
    error: Option<ErrorInfo>,
    createdAt: int,
    updatedAt: int)

  /** `details?.url`: the console URL a provider may put in the detail payload. */
  function DetailsUrl(st: SessionState): (r: Option<string>)
    ensures r.Some? <==> st.details.Some? && "url" in st.details.value
    ensures r.Some? ==> r.value == st.details.value["url"]
  {
    if st.details.Some? && "url" in st.details.value then Some(st.details.value["url"]) else None
  }

  /** The outcome of one `getSession` call: a state, or the error it threw. */
  datatype RemoteOutcome = Fetched(state: SessionState) | FetchFailed(error: ProviderError)

  /** What `createSession` is asked for. */
  datatype CreateSessionParams = CreateSessionParams(
    repo: string,
    branch: Option<string>,
    prompt: string,
    title: Option<string>,
    autoCreatePR: Option<bool>,
    requirePlanApproval: Option<bool>)

  /** What `createSession` answers once the remote backend accepted the work. */
  datatype CreateSessionResult = CreateSessionResult(
    sessionId: string,
    status: SessionStatus,
    consoleUrl: Option<string>)

  /**
   * A partial update of a tracked session: `None` leaves a field alone,
   * `Some(v)` overwrites it. The optional fields take `Some(None)` for a key
   * present with the value `undefined`, which erases the stored value. Only
   * the fields callers ever update can appear in a patch.
   */
  datatype Patch = Patch(
    status: Option<SessionStatus>,
    statusMessage: Option<Option<string>>,
    consoleUrl: Option<Option<string>>,
    updatedAt: Option<int>)

  /**
   * The record after merging a patch into it, the way an object spread
   * `{...session, ...patch}` merges: the patch's keys win, every other field
   * keeps its value.
   */
  function ApplyPatch(s: TrackedSession, p: Patch): (r: TrackedSession)
    ensures p.status.Some? ==> r.status == p.status.value
    ensures p.statusMessage.Some? ==> r.statusMessage == p.statusMessage.value
    ensures p.consoleUrl.Some? ==> r.consoleUrl == p.consoleUrl.value
    ensures p.updatedAt.Some? ==> r.updatedAt == p.updatedAt.value
    ensures p.status.None? ==> r.status == s.status
    ensures p.statusMessage.None? ==> r.statusMessage == s.statusMessage
    ensures p.consoleUrl.None? ==> r.consoleUrl == s.consoleUrl
    ensures p.updatedAt.None? ==> r.updatedAt == s.updatedAt
    ensures r.(status := s.status, statusMessage := s.statusMessage,
               consoleUrl := s.consoleUrl, updatedAt := s.updatedAt) == s
  {
    s.(status := p.status.GetOr(s.status),
       statusMessage := p.statusMessage.GetOr(s.statusMessage),
       consoleUrl := p.consoleUrl.GetOr(s.consoleUrl),
       updatedAt := p.updatedAt.GetOr(s.updatedAt))
  }

  /** Applying the same patch twice is applying it once. */
  lemma ApplyPatchIdempotent(s: TrackedSession, p: Patch)
    ensures ApplyPatch(ApplyPatch(s, p), p) == ApplyPatch(s, p)
  {
  }

  /**
   * A patch whose timestamp does not go back in time keeps a record well
   * formed.
   */
  lemma ApplyPatchKeepsWellFormed(s: TrackedSession, p: Patch)
    requires WellFormed(s)
    requires p.updatedAt.Some? ==> p.updatedAt.value >= s.updatedAt
    ensures WellFormed(ApplyPatch(s, p))
  {
  }
}

=== FILE: start_tool.dfy ===
/**
 * The `start` command: resolve repository and branch, ask the provider to
 * create a session, and register the new `TrackedSession`.
 *
 * The two git lookups, the provider's answer, the fresh local id and the
 * clock are inputs; a failed git command is `None`.
 */
module StartTool {
  import opened Wrappers
  import opened Sessions
  import Text

  /** The tool's arguments as the caller gave them; the two flags may be omitted. */
  datatype StartArgs = StartArgs(
    prompt: string,
    title: Option<string>,
    branch: Option<string>,
    repo: Option<string>,
    autoReview: Option<bool>,
    requirePlan: Option<bool>)

  /** Defaults of the two flags. */
  const DefaultAutoReview: bool := true
  const DefaultRequirePlan: bool := false

  /** The review budget every new session starts with. */
  const DefaultMaxReviewRounds: int := 3

  /** The branch used when neither the caller nor git names one. */
  const FallbackBranch: string := "main"

  /** The side effects of `start`, in the order they happen. */
  datatype StartCall =
    | GitRemoteUrl
    | GitCurrentBranch
    | CreateSession(params: CreateSessionParams)
    | AddSession(session: TrackedSession)

  datatype StartError =
    | RepoUnknown
    | CreateFailed(error: ProviderError)

  /** The calls made, and the registered session or the error thrown. */
  datatype StartRun = StartRun(calls: seq<StartCall>, outcome: Result<TrackedSession, StartError>)

  /** `args.repo`, else the trimmed `remote.origin.url`; `None` when neither is known. */
  function ResolveRepo(repo: Option<string>, gitRemote: Option<string>): (r: Option<string>)
    ensures Text.Truthy(repo) ==> r == repo
    ensures !Text.Truthy(repo) && gitRemote.Some? ==> r == Some(Text.Trim(gitRemote.value))
    ensures r.None? <==> !Text.Truthy(repo) && gitRemote.None?
  {
    if Text.Truthy(repo) then repo
    else if gitRemote.Some? then Some(Text.Trim(gitRemote.value))
    else None
  }

  /** `args.branch`, else the trimmed current git branch, else "main". */
  function ResolveBranch(branch: Option<string>, gitBranch: Option<string>): (r: string)
    ensures Text.Truthy(branch) ==> r == branch.value
    ensures !Text.Truthy(branch) && gitBranch.Some? ==> r == Text.Trim(gitBranch.value)
    ensures !Text.Truthy(branch) && gitBranch.None? ==> r == FallbackBranch
  {
    if Text.Truthy(branch) then branch.value
    else if gitBranch.Some? then Text.Trim(gitBranch.value)
    else FallbackBranch
  }

  /** What the provider is asked for: always with a pull request, plan approval as requested. */
  function CreateRequest(args: StartArgs, repo: string, branch: string): (p: CreateSessionParams)
    ensures p.autoCreatePR == Some(true)
    ensures p.requirePlanApproval == Some(args.requirePlan.GetOr(DefaultRequirePlan))
    ensures p.repo == repo && p.branch == Some(branch)
    ensures p.prompt == args.prompt && p.title == args.title
  {
    CreateSessionParams(repo, Some(branch), args.prompt, args.title, Some(true),
                        Some(args.requirePlan.GetOr(DefaultRequirePlan)))
  }

  /** The record registered for a freshly created remote session. */
  function NewSession(args: StartArgs, repo: string, branch: string, providerName: string,
                      created: CreateSessionResult, localId: string, now: int): (s: TrackedSession)
    ensures s.id == localId && s.provider == providerName
    ensures s.remoteSessionId == created.sessionId && s.status == created.status
    ensures s.consoleUrl == created.consoleUrl
    ensures s.repo == repo && s.branch == branch && s.prompt == args.prompt && s.title == args.title
    ensures s.autoReview == args.autoReview.GetOr(DefaultAutoReview)
    ensures s.reviewRound == 0 && s.maxReviewRounds == DefaultMaxReviewRounds
    ensures !s.autoMerge && !s.merged && s.watching && !s.inFlight
    ensures s.createdAt == now && s.updatedAt == now
    ensures s.statusMessage.None? && s.error.None?
    ensures WellFormed(s)
  {
    TrackedSession(
      id := localId,
      provider := providerName,
      remoteSessionId := created.sessionId,
      repo := repo,
      branch := branch,
      prompt := args.prompt,
      title := args.title,
      status := created.status,
      statusMessage := None,
      consoleUrl := created.consoleUrl,
      error := None,
      autoReview := args.autoReview.GetOr(DefaultAutoReview),
      reviewRound := 0,
      maxReviewRounds := DefaultMaxReviewRounds,
      autoMerge := false,
      merged := false,
      watching := true,
      inFlight := false,
      createdAt := now,
      updatedAt := now)
  }

  /** The git lookups `start` performs before it talks to the provider. */
  function GitCalls(args: StartArgs, gitRemote: Option<string>): (calls: seq<StartCall>)
    ensures GitRemoteUrl in calls <==> !Text.Truthy(args.repo)
    ensures GitCurrentBranch in calls <==> !Text.Truthy(args.branch) && ResolveRepo(args.repo, gitRemote).Some?
  {
    (if Text.Truthy(args.repo) then [] else [GitRemoteUrl])
    + (if ResolveRepo(args.repo, gitRemote).None? || Text.Truthy(args.branch) then [] else [GitCurrentBranch])
  }

  /** Counts the `addSession` calls of a run. */
  function AddCount(calls: seq<StartCall>): nat
    decreases |calls|
  {
    if |calls| == 0 then 0 else (if calls[0].AddSession? then 1 else 0) + AddCount(calls[1..])
  }

  lemma {:induction false} AddCountAppend(a: seq<StartCall>, b: seq<StartCall>)
    ensures AddCount(a + b) == AddCount(a) + AddCount(b)
    decreases |a|
  {
    if |a| == 0 {
      assert a + b == b;
    } else {
      assert (a + b)[1..] == a[1..] + b;
      AddCountAppend(a[1..], b);
    }
  }

  /** Git lookups never register a session. */
  lemma {:induction false} NoAddInGitCalls(calls: seq<StartCall>)
    requires forall i :: 0 <= i < |calls| ==> calls[i] == GitRemoteUrl || calls[i] == GitCurrentBranch
    ensures AddCount(calls) == 0
    decreases |calls|
  {
    if |calls| > 0 {
      NoAddInGitCalls(calls[1..]);
    }
  }

  /** `execute` of the start tool. */
  function Start(args: StartArgs, gitRemote: Option<string>, gitBranch: Option<string>,
                 providerName: string, created: Result<CreateSessionResult, ProviderError>,
                 localId: string, now: int): (r: StartRun)
    ensures r.outcome == Failure(RepoUnknown) <==> !Text.Truthy(args.repo) && gitRemote.None?
    ensures r.outcome.Success? <==> ResolveRepo(args.repo, gitRemote).Some? && created.Success?
    ensures r.outcome.Success? ==> r.outcome.value == NewSession(args, ResolveRepo(args.repo, gitRemote).value,
                                     ResolveBranch(args.branch, gitBranch), providerName, created.value, localId, now)
    ensures forall i :: 0 <= i < |r.calls| && r.calls[i].CreateSession? ==>
              ResolveRepo(args.repo, gitRemote).Some? &&
              r.calls[i].params == CreateRequest(args, ResolveRepo(args.repo, gitRemote).value, ResolveBranch(args.branch, gitBranch))
    ensures AddCount(r.calls) == (if r.outcome.Success? then 1 else 0)
    ensures r.outcome.Success? ==> |r.calls| >= 2 && r.calls[|r.calls| - 1] == AddSession(r.outcome.value)
                                   && r.calls[|r.calls| - 2].CreateSession?
    ensures (exists i :: 0 <= i < |r.calls| && r.calls[i].CreateSession?) <==> ResolveRepo(args.repo, gitRemote).Some?
  {
    var git := GitCalls(args, gitRemote);
    NoAddInGitCalls(git);
    match ResolveRepo(args.repo, gitRemote)
    case None =>
      StartRun(git, Failure(RepoUnknown))
    case Some(repo) =>
      var branch := ResolveBranch(args.branch, gitBranch);
      var request := CreateRequest(args, repo, branch);
      var asked := git + [CreateSession(request)];
      AddCountAppend(git, [CreateSession(request)]);
      assert asked[|asked| - 1].CreateSession?;
      match created
      case Failure(e) =>
        StartRun(asked, Failure(CreateFailed(e)))
      case Success(result) =>
        var session := NewSession(args, repo, branch, providerName, result, localId, now);
        AddCountAppend(asked, [AddSession(session)]);
        StartRun(asked + [AddSession(session)], Success(session))
  }

  /**
   * `start` looks git up before anything else, and exactly as `GitCalls`
   * says: the remote when no repository is given, the branch when none is
   * given and the repository resolved. After that it asks the provider once,
   * when the repository resolved, and registers once, when that succeeded.
   */
  lemma StartLooksUpGitFirst(args: StartArgs, gitRemote: Option<string>, gitBranch: Option<string>,
                             providerName: string, created: Result<CreateSessionResult, ProviderError>,
                             localId: string, now: int)
    ensures var r := Start(args, gitRemote, gitBranch, providerName, created, localId, now);
            var git := GitCalls(args, gitRemote);
            && |git| <= |r.calls| && r.calls[..|git|] == git
            && (GitRemoteUrl in r.calls <==> !Text.Truthy(args.repo))
            && (GitCurrentBranch in r.calls <==> !Text.Truthy(args.branch) && ResolveRepo(args.repo, gitRemote).Some?)
            && |r.calls| == |git| + (if ResolveRepo(args.repo, gitRemote).Some? then 1 else 0)
                                  + (if r.outcome.Success? then 1 else 0)
  {
    var git := GitCalls(args, gitRemote);
    match ResolveRepo(args.repo, gitRemote)
    case None =>
      GitThenProvider(git, []);
      assert git + [] == git;
    case Some(repo) =>
      var request := CreateRequest(args, repo, ResolveBranch(args.branch, gitBranch));
      match created
      case Failure(_) =>
        GitThenProvider(git, [CreateSession(request)]);
      case Success(result) =>
        var session := NewSession(args, repo, ResolveBranch(args.branch, gitBranch), providerName, result, localId, now);
        GitThenProvider(git, [CreateSession(request), AddSession(session)]);
        assert git + [CreateSession(request)] + [AddSession(session)] == git + [CreateSession(request), AddSession(session)];
  }

  /** Provider calls after the git lookups add no git lookup. */
  lemma GitThenProvider(git: seq<StartCall>, tail: seq<StartCall>)
    requires forall i :: 0 <= i < |tail| ==> tail[i].CreateSession? || tail[i].AddSession?
    ensures |git| <= |git + tail| && (git + tail)[..|git|] == git
    ensures GitRemoteUrl in git + tail <==> GitRemoteUrl in git
    ensures GitCurrentBranch in git + tail <==> GitCurrentBranch in git
  {
    assert (git + tail)[..|git|] == git;
    assert GitRemoteUrl !in tail && GitCurrentBranch !in tail;
  }

  /** The text `start` answers with. */
  function StartReply(s: TrackedSession): (r: string)
    ensures Text.StartsWith(r, "Started cloud worker session!\nID: " + s.id + "\n")
  {
    "Started cloud worker session!\nID: " + s.id
    + "\nRemote ID: " + s.remoteSessionId
    + "\nStatus: " + s.status.Name()
    + "\nConsole: " + Text.OrElse(s.consoleUrl, "N/A")
    + "\n\nI will poll for updates in the background."
  }
}

=== FILE: status_tool.dfy ===
/**
 * The `status` command: look the session up locally, force a remote
 * `getSession`, merge the answer into the store, and report; a remote
 * failure falls back to the stored status.
 */
module StatusTool {
  import opened Wrappers
  import opened Sessions
  import Text
  import ReconciliationLoop

  /** The session store, keyed by local id. */
  type Store = map<string, TrackedSession>

  /** What the tool reports back. */
  datatype StatusReply =
    | RemoteReply(updated: TrackedSession)
    | LocalReply(status: SessionStatus, failure: ProviderError)

  /** The provider query made, the store update issued, and the reply. */
  datatype StatusRun = StatusRun(queried: string, update: Option<(string, Patch)>, reply: StatusReply)

  datatype StatusError = SessionNotFound(sessionId: string)

  /** The patch `status` writes: the remote status, message and console URL, nothing else. */
  function RemotePatch(st: SessionState): (p: Patch)
    ensures p.status == Some(st.status)
    ensures p.statusMessage == Some(st.statusMessage)
    ensures p.consoleUrl == Some(DetailsUrl(st))
    ensures p.updatedAt.None?
  {
    Patch(Some(st.status), Some(st.statusMessage), Some(DetailsUrl(st)), None)
  }

  /** `execute` of the status tool; `remote` is what `getSession` did for the stored remote id. */
  function Status(store: Store, sessionId: string, remote: RemoteOutcome): (r: Result<StatusRun, StatusError>)
    ensures sessionId !in store <==> r == Failure(SessionNotFound(sessionId))
    ensures r.Success? ==> r.value.queried == store[sessionId].remoteSessionId
    ensures r.Success? && remote.FetchFailed? ==>
              r.value.update.None? && r.value.reply == LocalReply(store[sessionId].status, remote.error)
    ensures r.Success? && remote.Fetched? ==>
              && r.value.update == Some((store[sessionId].id, RemotePatch(remote.state)))
              && r.value.reply == RemoteReply(ApplyPatch(store[sessionId], RemotePatch(remote.state)))
  {
    if sessionId !in store then Failure(SessionNotFound(sessionId))
    else
      var session := store[sessionId];
      match remote
      case FetchFailed(e) =>
        Success(StatusRun(session.remoteSessionId, None, LocalReply(session.status, e)))
      case Fetched(st) =>
        var p := RemotePatch(st);
        Success(StatusRun(session.remoteSessionId, Some((session.id, p)), RemoteReply(ApplyPatch(session, p))))
  }

  /**
   * On success the refreshed record carries the remote status, message and
   * console URL; its identity, remote id, creation time, prompt and flags
   * are the stored ones. The update time is left out of the frame: the
   * patch sends none, and the store may refresh it on its own.
   */
  lemma RemoteMergeTouchesOnlyRemoteFields(store: Store, sessionId: string, st: SessionState)
    requires sessionId in store
    ensures var r := Status(store, sessionId, Fetched(st));
            var u := r.value.reply.updated;
            && u.status == st.status
            && u.statusMessage == st.statusMessage
            && u.consoleUrl == DetailsUrl(st)
            && u.(status := store[sessionId].status, statusMessage := store[sessionId].statusMessage,
                  consoleUrl := store[sessionId].consoleUrl, updatedAt := store[sessionId].updatedAt) == store[sessionId]
  {
  }

  /** Once the session exists, the tool always answers: remote failures become a local reply. */
  lemma KnownSessionAlwaysAnswers(store: Store, sessionId: string, remote: RemoteOutcome)
    requires sessionId in store
    ensures Status(store, sessionId, remote).Success?
    ensures remote.FetchFailed? <==> Status(store, sessionId, remote).value.reply.LocalReply?
  {
  }

  /**
   * A status check merges the remote status into the store, so the
   * background loop, seeing the same remote state next, finds no change and
   * raises no notification for that transition.
   */
  lemma StatusCheckPreemptsLoopNotification(store: Store, sessionId: string, st: SessionState, now: int)
    requires sessionId in store
    ensures var u := Status(store, sessionId, Fetched(st)).value.reply.updated;
            ReconciliationLoop.Reconcile(u, Fetched(st), now) == ReconciliationLoop.Unchanged
  {
  }

  /** The text `status` answers with. */
  function StatusText(reply: StatusReply): (r: string)
    ensures reply.LocalReply? ==> Text.StartsWith(r, "Local Status: " + reply.status.Name() + "\n")
    ensures reply.RemoteReply? ==> Text.StartsWith(r, "Session Status: " + reply.updated.status.Name() + "\n")
  {
    match reply
    case LocalReply(status, e) =>
      var head := "Local Status: " + status.Name() + "\n";
      head + ("(Failed to fetch remote status: " + e.description + ")")
    case RemoteReply(u) =>
      var head := "Session Status: " + u.status.Name() + "\n";
      head + ("Remote ID: " + u.remoteSessionId
              + "\nCreated: " + Text.IntToString(u.createdAt)
              + "\nUpdated: " + Text.IntToString(u.updatedAt)
              + "\nMessage: " + Text.OrElse(u.statusMessage, "N/A")
              + "\nConsole: " + Text.OrElse(u.consoleUrl, "N/A"))
  }
}

=== FILE: text.dfy ===
/**
 * The handful of JavaScript string operations the plugin relies on, stated
 * on `seq<char>`: prefix tests, `slice(0, n)`, ASCII case mapping,
 * `String.prototype.trim`, `Array.prototype.join`, the `x || fallback`
 * idiom, and decimal rendering of integers together with its parser.
 */
module Text {
  import opened Wrappers

  /** `s.startsWith(prefix)`. */
  predicate StartsWith(s: string, prefix: string) {
    prefix <= s
  }

  /** `s.endsWith(suffix)`. */
  predicate EndsWith(s: string, suffix: string) {
    |suffix| <= |s| && s[|s| - |suffix|..] == suffix
  }

  /** `s.slice(0, n)` for a non-negative `n`: the first `n` characters, or all of them. */
  function Take(s: string, n: nat): (r: string)
    ensures r <= s
    ensures |r| == if |s| < n then |s| else n
  {
    if |s| <= n then s else s[..n]
  }

  /** JavaScript truthiness of an optional string: present and non-empty. */
  predicate Truthy(o: Option<string>) {
    o.Some? && o.value != ""
  }

  /** `o || fallback` for an optional string. */
  function OrElse(o: Option<string>, fallback: string): (r: string)
    ensures Truthy(o) ==> r == o.value
    ensures !Truthy(o) ==> r == fallback
  {
    if Truthy(o) then o.value else fallback
  }

  // ---------------------------------------------------------------------
  // Case mapping. Every string the model upper- or lower-cases (status
  // names and Jules state names) is ASCII, so the ASCII mapping is exact.
  // ---------------------------------------------------------------------

  function UpperChar(c: char): (r: char)
    ensures 'a' <= c <= 'z' ==> 'A' <= r <= 'Z' && r as int == c as int - 32
    ensures !('a' <= c <= 'z') ==> r == c
  {
    if 'a' <= c <= 'z' then (c as int - 32) as char else c
  }

  function LowerChar(c: char): (r: char)
    ensures 'A' <= c <= 'Z' ==> 'a' <= r <= 'z' && r as int == c as int + 32
    ensures !('A' <= c <= 'Z') ==> r == c
  {
    if 'A' <= c <= 'Z' then (c as int + 32) as char else c
  }

  /** `s.toUpperCase()` on ASCII text. */
  function ToUpper(s: string): (r: string)
    ensures |r| == |s|
    ensures forall i :: 0 <= i < |s| ==> r[i] == UpperChar(s[i])
  {
    if |s| == 0 then [] else [UpperChar(s[0])] + ToUpper(s[1..])
  }

  /** `s.toLowerCase()` on ASCII text. */
  function ToLower(s: string): (r: string)
    ensures |r| == |s|
    ensures forall i :: 0 <= i < |s| ==> r[i] == LowerChar(s[i])
  {
    if |s| == 0 then [] else [LowerChar(s[0])] + ToLower(s[1..])
  }

  // ---------------------------------------------------------------------
  // trim()
  // ---------------------------------------------------------------------

  /** The characters ECMAScript's `trim` removes: WhiteSpace and LineTerminator. */
  predicate IsSpace(c: char) {
    || c == '\t' || c == '\n' || c == '\U{000B}' || c == '\U{000C}' || c == '\r'
    || c == ' ' || c == '\U{00A0}' || c == '\U{1680}'
    || ('\U{2000}' <= c <= '\U{200A}')
    || c == '\U{2028}' || c == '\U{2029}' || c == '\U{202F}' || c == '\U{205F}'
    || c == '\U{3000}' || c == '\U{FEFF}'
  }

  /** Number of leading space characters of `s`. */
  function LeadingSpace(s: string): (n: nat)
    ensures n <= |s|
    ensures forall i :: 0 <= i < n ==> IsSpace(s[i])
    ensures n < |s| ==> !IsSpace(s[n])
  {
    if |s| > 0 && IsSpace(s[0]) then 1 + LeadingSpace(s[1..]) else 0
  }

  /** Number of trailing space characters of `s`. */
  function TrailingSpace(s: string): (n: nat)
    ensures n <= |s|
    ensures forall i :: |s| - n <= i < |s| ==> IsSpace(s[i])
    ensures n < |s| ==> !IsSpace(s[|s| - n - 1])
  {
    if |s| > 0 && IsSpace(s[|s| - 1]) then 1 + TrailingSpace(s[..|s| - 1]) else 0
  }

  /** `r` sits in `s` at offset `a`, with only space characters around it. */
  predicate TrimmedAt(s: string, r: string, a: int) {
    && 0 <= a <= |s| - |r|
    && s[a..a + |r|] == r
    && (forall i :: 0 <= i < a ==> IsSpace(s[i]))
    && (forall i :: a + |r| <= i < |s| ==> IsSpace(s[i]))
  }

  /**
   * `s.trim()`: the longest infix of `s` that neither starts nor ends with
   * a space character; everything cut away on either side is space.
   */
  function Trim(s: string): (r: string)
    ensures |r| <= |s|
    ensures |r| > 0 ==> !IsSpace(r[0]) && !IsSpace(r[|r| - 1])
    ensures exists a :: TrimmedAt(s, r, a)
  {
    var a := LeadingSpace(s);
    var rest := s[a..];
    var b := TrailingSpace(rest);
    var r := rest[..|rest| - b];
    assert s[a..a + |r|] == r;
    assert forall i :: a + |r| <= i < |s| ==> s[i] == rest[i - a];
    assert TrimmedAt(s, r, a);
    r
  }

  // ---------------------------------------------------------------------
  // join
  // ---------------------------------------------------------------------

  /**
   * `parts.join(sep)`: the parts in order with `sep` between neighbours, so
   * the result opens with the first part and closes with the last.
   */
  function Join(parts: seq<string>, sep: string): (r: string)
    ensures |parts| == 0 ==> r == ""
    ensures |parts| == 1 ==> r == parts[0]
    ensures |parts| > 0 ==> StartsWith(r, parts[0]) && EndsWith(r, parts[|parts| - 1])
    ensures |parts| > 1 ==> StartsWith(r, parts[0] + sep)
    decreases |parts|
  {
    if |parts| == 0 then ""
    else if |parts| == 1 then parts[0]
    else
      var rest := Join(parts[1..], sep);
      var r := parts[0] + sep + rest;
      assert r[|r| - |rest|..] == rest;
      assert parts[1..][|parts[1..]| - 1] == parts[|parts| - 1];
      r
  }

  /** The join of the first `k` parts is a prefix of the join of them all. */
  lemma {:induction false} JoinKeepsPrefix(parts: seq<string>, sep: string, k: nat)
    requires 0 < k <= |parts|
    ensures StartsWith(Join(parts, sep), Join(parts[..k], sep))
    decreases |parts| - k
  {
    if k == |parts| {
      assert parts[..k] == parts;
    } else {
      JoinKeepsPrefix(parts, sep, k + 1);
      assert parts[..k + 1] == parts[..k] + [parts[k]];
      JoinSnoc(parts[..k], parts[k], sep);
    }
  }

  /** Total length of the parts. */
  function SumLen(parts: seq<string>): nat
    decreases |parts|
  {
    if |parts| == 0 then 0 else |parts[0]| + SumLen(parts[1..])
  }

  /**
   * A join is exactly as long as its parts plus one separator between each
   * pair of neighbours: nothing is repeated and nothing is dropped.
   */
  lemma {:induction false} JoinLength(parts: seq<string>, sep: string)
    requires |parts| > 0
    ensures |Join(parts, sep)| == SumLen(parts) + |sep| * (|parts| - 1)
    decreases |parts|
  {
    if |parts| > 1 {
      var rest := Join(parts[1..], sep);
      JoinLength(parts[1..], sep);
      assert Join(parts, sep) == parts[0] + sep + rest;
      OneMoreSeparator(|sep|, |parts| - 1);
    }
  }

  lemma OneMoreSeparator(w: nat, n: nat)
    requires n > 0
    ensures w + w * (n - 1) == w * n
  {
  }

  /** A prefix of `b` stays a prefix behind a common head. */
  lemma PrefixBehindHead(h: string, b: string, x: string)
    requires StartsWith(b, x)
    ensures StartsWith(h + b, h + x)
  {
    assert (h + b)[..|h + x|] == h + x;
  }

  /** A suffix of `b` stays a suffix behind any head. */
  lemma SuffixBehindHead(h: string, b: string, y: string)
    requires EndsWith(b, y)
    ensures EndsWith(h + b, y)
  {
    assert (h + b)[|h + b| - |y|..] == b[|b| - |y|..];
  }

  /**
   * Joining one more part at the end appends the separator and that part:
   * the same result, read from the other end.
   */
  lemma {:induction false} JoinSnoc(parts: seq<string>, last: string, sep: string)
    requires |parts| > 0
    ensures Join(parts + [last], sep) == Join(parts, sep) + sep + last
    decreases |parts|
  {
    if |parts| == 1 {
      assert (parts + [last])[1..] == [last];
    } else {
      assert (parts + [last])[1..] == parts[1..] + [last];
      JoinSnoc(parts[1..], last, sep);
    }
  }

  // ---------------------------------------------------------------------
  // Decimal integers: `n.toString()` and its inverse.
  // ---------------------------------------------------------------------

  predicate IsDigit(c: char) {
    '0' <= c <= '9'
  }

  function DigitChar(d: nat): (c: char)
    requires d < 10
    ensures IsDigit(c) && c as int - '0' as int == d
  {
    ('0' as int + d) as char
  }

  function DigitValue(c: char): nat
    requires IsDigit(c)
  {
    c as int - '0' as int
  }

  /** Decimal digits of `n`, most significant first, without leading zeros. */
  function NatToString(n: nat): (r: string)
    ensures |r| >= 1
    ensures forall i :: 0 <= i < |r| ==> IsDigit(r[i])
    ensures |r| > 1 ==> r[0] != '0'
  {
    if n < 10 then [DigitChar(n)] else NatToString(n / 10) + [DigitChar(n % 10)]
  }

  /** `i.toString()` for an integer-valued number. */
  function IntToString(i: int): string {
    if i < 0 then "-" + NatToString(-i) else NatToString(i)
  }

  /** The value of a string of decimal digits. */
  function DigitsValue(s: string): nat
    requires forall i :: 0 <= i < |s| ==> IsDigit(s[i])
  {
    if |s| == 0 then 0 else 10 * DigitsValue(s[..|s| - 1]) + DigitValue(s[|s| - 1])
  }

  /** Reads an optionally negative decimal integer; `None` for anything else. */
  function ParseInt(s: string): Option<int> {
    if |s| > 0 && s[0] == '-' then
      if |s| > 1 && forall i :: 1 <= i < |s| ==> IsDigit(s[i]) then Some(-(DigitsValue(s[1..]) as int)) else None
    else if |s| > 0 && forall i :: 0 <= i < |s| ==> IsDigit(s[i]) then Some(DigitsValue(s))
    else None
  }

  lemma {:induction false} NatToStringValue(n: nat)
    ensures DigitsValue(NatToString(n)) == n
    decreases n
  {
    if n >= 10 {
      var r := NatToString(n);
      var h := NatToString(n / 10);
      assert r == h + [DigitChar(n % 10)];
      assert r[..|r| - 1] == h;
      NatToStringValue(n / 10);
    }
  }

  /** Rendering an integer in decimal and reading it back gives the integer. */
  lemma IntToStringRoundTrip(i: int)
    ensures ParseInt(IntToString(i)) == Some(i)
  {
    if i < 0 {
      var d := NatToString(-i);
      var s := "-" + d;
      assert s[1..] == d;
      assert forall k :: 1 <= k < |s| ==> s[k] == d[k - 1];
      NatToStringValue(-i);
    } else {
      NatToStringValue(i);
    }
  }
}

=== FILE: wrappers.dfy ===
/** Optional values and results, shared by every module of the model. */
module Wrappers {

  /** An optional value: TypeScript's `T | undefined`. */
  datatype Option<+T> = None | Some(value: T) {

    /** The carried value, or `default` when there is none. */
    function GetOr(default: T): T {
      match this
      case Some(v) => v
      case None => default
    }
  }

  /** The value of a computation that either returns or throws. */
  datatype Result<+R, +E> = Success(value: R) | Failure(error: E)
}
